=== FILE: README.md ===
# Task lifecycle of the batch downloader, in Dafny

The downloader groups remote file URLs into *tasks*. A client creates a task,
adds URLs one at a time, and when a task holds `MaxFiles` URLs a pipeline
fetches every URL and packs the successes into `<id>.zip`. This project models
the in-memory task store that drives this (`internal/models/models.go`) and the
pure decisions of the HTTP handlers (`internal/handlers/handlers.go`), and
proves the store's invariants.

Layout:

- `results.dfy`: `Option` (a Go pointer that may be nil) and `Result` (a value or the text of a Go `error`).
- `paths.dfy` (module `Paths`): `filepath.Ext` with '/' as separator, ASCII `strings.ToLower`, and `isAllowed`.
- `models.dfy` (module `Models`): `Task`, `Config`, `AppState` and every locked section as a pure state-to-state function. A failing operation returns the state it was given. `processTask` is split into its two locked sections: `StartProcessing`, then `FinishTask`. `FinishTask` goes to `HandleTaskError` when the archive file cannot be created, and to `CompleteTask` otherwise.
- `lifecycle.dfy` (module `Lifecycle`): the store invariant and the interleaving of atomic steps. `Inv` says the counter equals the number of non-terminal tasks and stays at or below `MaxTasks`. It also says every task holds at most `MaxFiles` URLs and its status, errors and archive agree. Steps are `Op` values. `Run` executes a sequence of them and records whose pipeline each step launched. The main results are that the invariant holds in every reachable state and that each task's pipeline is launched at most once.
- `handlers.dfy` (module `Handlers`): status codes, the empty-URL guard and the absolute archive link.
- `scenarios.dfy` (module `Scenarios`): concrete runs: a two-file task with one 404, a refused file type, and the busy store freeing a slot.

How the Go program becomes a model:

- Each mutex-guarded section is one atomic function application.
- `go app.processTask(task)` becomes the `true` value returned by a successful `AddURL`.
- The network fetch of each URL becomes a `FetchOutcome`: `Fetched`, or `FetchError(reason)`.
- A failed `os.Create` becomes the `allocError` argument of `FinishTask`.
- The task id and the creation time are arguments. The trace model enables a create step only when its id is new.

Behaviour of the code that the model follows:

- `GetTask` returns the stored task itself (models.go:103); it makes no copy. The model returns the stored value and claims no snapshot isolation.
- Only the URL's extension is lower-cased; the configured extensions are compared as written. An entry such as `PDF` can never match (`Paths.UpperCaseEntryNeverMatches`).
- A URL registered twice keeps an error entry if any of its fetches failed, with the reason of the last failure. This holds even when a later fetch of the same URL succeeded (`Models.CollectErrorsSpec`).
- Errors are an empty map, not Go's nil map, until the task finishes. JSON `omitempty` treats the two the same.

## Model

| member | source | states |
|---|---|---|
| Paths.ExtScan | internal/models/models.go:80 | a non-empty result is a suffix of the path that starts with '.' and has no '.' or '/' after it. An empty result means every '.' scanned is followed by a '/' |
| Paths.Ext | internal/models/models.go:80 | `filepath.Ext`: the result is a suffix of the path and is empty or starts with '.'. `Paths.ExtCharacterisation` says which suffix |
| Paths.ExtCharacterisation | internal/models/models.go:80 | the extension is empty iff every '.' is followed by a '/'. Otherwise it is the suffix starting at the last '.' of the final path element |
| Paths.ExtFindsDot | internal/models/models.go:80 | converse: a '.' with no later '.' or '/' starts the extension |
| Paths.LowerChar | internal/models/models.go:80 | an ASCII upper-case letter is shifted to its lower-case letter and every other character is kept, so the result is never upper-case |
| Paths.Lower | internal/models/models.go:80 | lower-casing keeps the length and maps every character through `LowerChar` |
| Paths.LowerIdempotent | internal/models/models.go:80 | lower-casing twice is lower-casing once, and no upper-case letter is left |
| Paths.LowerCommutesWithExtScan | internal/models/models.go:80 | lower-casing before or after the extension scan gives the same result |
| Paths.LowerCommutesWithExt | internal/models/models.go:80 | `ToLower(Ext(url)) == Ext(ToLower(url))` |
| Paths.IsAllowed | internal/models/models.go:183-190 | true iff some allowed entry `a` has `"." + a == ext`. The empty extension is never allowed |
| Paths.HasAllowedExt | internal/models/models.go:80-81 | the file-type test of `AddURL` passes iff some allowed entry `a` has `"." + a` equal to the lower-cased extension of the URL. A URL with an empty extension never passes |
| Paths.NoExtensionRejected | internal/models/models.go:80-83 | a URL whose final path element has no '.' fails the file-type test |
| Paths.HasAllowedExtIgnoresCase | internal/models/models.go:80-81 | the file-type test gives the same answer for a URL and its lower-cased form |
| Paths.UpperCaseEntryNeverMatches | internal/models/models.go:183-190 | an allowed entry that holds an upper-case ASCII letter is never equal to "." plus a lower-cased extension |
| Models.ArchivePath | internal/models/models.go:136 | the archive path is "/download/", then the id, then ".zip" |
| Models.ArchivePathInjective | internal/models/models.go:111 | different task ids give different archive paths |
| Models.NewAppState | internal/models/models.go:40-45 | a new store has no tasks, a zero counter and the given configuration |
| Models.CreateTask | internal/models/models.go:47-65 | fails with "server is busy" iff the counter is at or over `MaxTasks`, and then leaves the state unchanged. On success: a PENDING task with the given id and no URLs, errors or archive. The counter goes up by one and every other task is unchanged |
| Models.AddURL | internal/models/models.go:67-92 | errors are checked in order: "task not found", then "maximum files reached" (at `MaxFiles` URLs), then "invalid file type". Any error leaves the state unchanged. On success exactly `url` is appended to that task and the length stays at or below `MaxFiles`. Nothing else changes. When all three checks pass the call succeeds. The trigger is true iff the new length equals `MaxFiles` |
| Models.GetTask | internal/models/models.go:94-104 | "task not found" iff the id is unknown; otherwise the stored task itself |
| Models.GetAfterCreate | internal/models/models.go:61-64 | reading a task right after its creation returns exactly the task `CreateTask` returned |
| Models.GetAfterAddURL | internal/models/models.go:85 | after a successful `AddURL`, reading that task shows its old URLs followed by `url`. Every other read, and every read after a failed `AddURL`, is unchanged |
| Models.StartProcessing | internal/models/models.go:106-109 | only the task's status changes, to PROCESSING |
| Models.CollectErrors | internal/models/models.go:124-128 | every error key is a registered URL, and a failure of the last URL is recorded with its reason |
| Models.CollectErrorsUnfold | internal/models/models.go:124-127 | one loop iteration: a failed fetch of the last URL sets that URL's entry to its reason. Every other entry is what the earlier URLs left |
| Models.CollectErrorsHas | internal/models/models.go:124-128 | a URL is in the error map iff one of its fetches failed |
| Models.CollectErrorsLast | internal/models/models.go:124-128 | each URL in the error map is mapped to the reason of its last failed fetch; later fetches of it succeeded |
| Models.CollectErrorsSpec | internal/models/models.go:124-128 | a URL is in the error map iff one of its fetches failed, and its entry is the reason of its last failed fetch |
| Models.CollectErrorsDistinct | internal/models/models.go:124-128 | when no URL repeats, a URL has an entry iff its own fetch failed, and the entry is that fetch's reason |
| Models.CompleteTask | internal/models/models.go:130-138 | status COMPLETED, errors are the collected per-URL errors, archive "/download/<id>.zip", and the counter goes down by one. The task's id, URLs and creation time and all other tasks are unchanged |
| Models.HandleTaskError | internal/models/models.go:143-150 | status FAILED, errors exactly {"system": msg}, and the counter goes down by one. The archive and all other tasks are unchanged |
| Models.FinishTask | internal/models/models.go:111-150 | a failed archive creation ends the task FAILED with the system error; a failed task keeps its archive. Otherwise it ends COMPLETED with its archive and the collected per-URL errors. Either way the task's id, URLs and creation time and every other task are unchanged, and the counter goes down by one |
| Lifecycle.ActiveIds | internal/models/models.go:36 | the ids counted as active are exactly the stored tasks that are neither COMPLETED nor FAILED |
| Lifecycle.NewAppStateInv | internal/models/models.go:40-45 | a new store satisfies the invariant |
| Lifecycle.ActiveIdsInsert | internal/models/models.go:61-62 | storing a new PENDING task adds one active id, matching the increment |
| Lifecycle.ActiveIdsSame | internal/models/models.go:108 | a status change that stays non-terminal leaves the active ids unchanged |
| Lifecycle.ActiveIdsFinish | internal/models/models.go:147-149 | moving an active task to a terminal status removes one active id, matching the decrement |
| Lifecycle.CreatePreservesInv | internal/models/models.go:47-65 | creating a task under a new id keeps the invariant |
| Lifecycle.AddURLPreservesInv | internal/models/models.go:67-92 | `AddURL` keeps the invariant |
| Lifecycle.StartPreservesInv | internal/models/models.go:106-109 | marking a full PENDING task PROCESSING keeps the invariant |
| Lifecycle.FinishPreservesInv | internal/models/models.go:111-150 | completing or failing a PROCESSING task keeps the invariant. This includes the counter equation and the archive/errors shape of terminal tasks |
| Lifecycle.ApplyPreservesInv | internal/models/models.go:47-150 | every enabled step keeps the invariant |
| Lifecycle.Apply | internal/models/models.go:87-89 | a step launches a pipeline iff it is an `AddURL` that reported the trigger, and the pipeline is for that task. An `AddURL` step moves to `AddURL`'s next state. No step changes the configuration |
| Lifecycle.Rank | internal/models/models.go:17-22 | the status order gives rank 2 exactly to the terminal statuses |
| Lifecycle.ApplyFrame | internal/models/models.go:67-150 | no step removes a task or changes its id or creation time. URLs only grow and status only moves forward. A terminal task never changes, and a full URL list never changes |
| Lifecycle.TriggerFillsTask | internal/models/models.go:85-88 | a launched pipeline's task had `MaxFiles - 1` URLs before the step and `MaxFiles` after it |
| Lifecycle.Run | internal/models/models.go:37 | running steps never changes the configuration |
| Lifecycle.RunStep | internal/models/models.go:47-150 | running an enabled step first moves to its next state, and its launch, if any, is recorded before those of the remaining steps |
| Lifecycle.ApplyKeepsBudget | internal/models/models.go:76-78 | once a task is full, no step makes it not full |
| Lifecycle.RunPreservesInv | internal/models/models.go:47-150 | the invariant holds after any sequence of steps |
| Lifecycle.TriggerWithinBudget | internal/models/models.go:76-89 | over any sequence of steps, a task's pipeline is launched at most once, and never if the task is already full |
| Lifecycle.TriggerAtMostOnce | internal/models/models.go:87-88 | from a new store, every task's pipeline is launched at most once over any sequence of steps |
| Lifecycle.ReachableInv | internal/models/models.go:51-62 | every reachable state keeps the invariant, so the counter never exceeds `MaxTasks` |
| Lifecycle.FinishFreesCapacity | internal/models/models.go:138 | after a PROCESSING task finishes, `CreateTask` succeeds |
| Handlers.StatusCode | internal/handlers/handlers.go:82-93 | 404 iff "task not found", 403 iff "maximum files reached", 400 iff "invalid file type", and 500 for every other message |
| Handlers.CreateTaskHandler | internal/handlers/handlers.go:17-30 | 503 with the error text iff the store is busy, and then the state is unchanged. Otherwise 201 with the new id. The next state is always the one `CreateTask` produced |
| Handlers.AddURLHandler | internal/handlers/handlers.go:32-50 | an empty `url` gets 400 "URL required" and the state is unchanged. Otherwise 200 iff `AddURL` succeeds. For a non-empty `url` the response is 200 with no body on success, or `StatusCode` of the error text with that text as the body. The next state is `AddURL`'s, and a pipeline is launched iff `AddURL` reported the trigger. No response other than 200 changes the state or launches a pipeline |
| Handlers.AddURLHandlerCodes | internal/handlers/handlers.go:43-44 | the three `AddURL` failures reach the client as 404, 403 and 400, each iff its condition holds. The handler never answers 500 |
| Handlers.Scheme | internal/handlers/handlers.go:66-70 | the scheme is "https" iff the request used TLS, and "http" otherwise |
| Handlers.WithAbsoluteArchive | internal/handlers/handlers.go:63-75 | a missing archive stays missing. A stored path `p` becomes the base URL followed by `p`. Every other field of the copy is unchanged |
| Handlers.RewriteInjective | internal/handlers/handlers.go:72-74 | within one request, two tasks served with the same archive link have the same stored archive path |
| Handlers.GetTaskHandler | internal/handlers/handlers.go:52-80 | 404 with "task not found" iff the id is unknown; otherwise 200 with the task and its archive link made absolute |
| Handlers.CompletedTaskLink | internal/handlers/handlers.go:72-74 | a completed task is served with `<scheme>://<host>/download/<id>.zip` |
| Scenarios.ScenarioUrlsAllowed | internal/models/models.go:80-81 | "http://h/a.PDF" and "http://h/b.pdf" pass the test with "pdf" allowed |
| Scenarios.TwoFileRegistration | internal/models/models.go:67-92 | with two files per task, the first URL leaves the task PENDING with one URL and the second launches the pipeline |
| Scenarios.TwoFileCompletion | internal/models/models.go:124-138 | with fetches [ok, 404], the task completes with the single error for the second URL and gets "/download/t1.zip" |
| Scenarios.UnsupportedTypeScenario | internal/models/models.go:80-83 | a ".txt" URL is refused with "invalid file type", and the task stays PENDING and empty |
| Scenarios.CreateStep | internal/models/models.go:47-65 | a create step with a new id runs `CreateTask` and records no launch |
| Scenarios.AddStep | internal/models/models.go:67-92 | an add step runs `AddURL` and records a launch exactly when `AddURL` reported the trigger |
| Scenarios.TwoFileRegistrationSteps | internal/models/models.go:47-92 | with two files per task and two allowed URLs, create and two adds leave "t1" PENDING with both URLs and one active task. Only the second add launches the pipeline |
| Scenarios.TwoFilePipelineSteps | internal/models/models.go:106-138 | starting and finishing a full PENDING "t1" with the second fetch failing completes it with exactly that error and "/download/t1.zip", and frees one slot |
| Scenarios.TwoFileRun | internal/models/models.go:47-138 | the whole two-file trace from a new store launches the pipeline of "t1" exactly once. "t1" ends COMPLETED with the second URL's error, its archive, and nothing left active |
| Scenarios.CapacityScenario | internal/models/models.go:51-53 | with one slot taken a second create fails. After the first task receives its two URLs and its pipeline finishes, a create succeeds |

## Left out

- Network fetching, reading response bodies and writing zip entries (`downloadAndAddToZip`, models.go:152-177) are I/O. Each fetch is an abstract `FetchOutcome` and the archive contents are not modelled. So duplicate entry names in the zip are not modelled either.
- `os.Create`, closing the archive and the completion `Printf` are I/O. A failed creation is the `allocError` argument of `FinishTask`.
- `generateID` and `time.Now` read the clock. The id and timestamp are arguments. Distinct ids are assumed, and the trace model enables a create step only for a new id. `CreateTask` itself overwrites an existing id, as the Go map assignment would.
- `sync.Mutex` and goroutines: each locked section is one atomic step, and the trace model interleaves whole steps. The pipeline reads a task's URLs outside the lock. This is safe only because a full task's URLs never change (`Lifecycle.ApplyFrame`); the concurrency itself is not verified.
- `Models.GetTask`: Go returns a pointer that aliases the stored task, so a caller could see later pipeline writes. A value model cannot express that aliasing; the function returns the task's value at the time of the read.
- `Paths.Lower`: only ASCII letters are lower-cased; the Unicode case mapping of `strings.ToLower` is not modelled.
- `Paths.Ext`: '/' is the only separator (Unix `filepath.Ext`).
- Go's `int` is unbounded here. The counter and URL counts stay within the configured limits under the invariant, so no wrap-around arises.
- JSON encoding, `http.Error` writing (including its trailing newline) and headers are left out; `Handlers.Body` names what would be written.
- `internal/server/server.go` (routing, file serving), `internal/config/config.go` (YAML loading) and `cmd/main.go` (start-up) are not part of this model. `Config` is a given value, and the invariant assumes `MaxFiles >= 1` and `MaxTasks >= 1`.

=== FILE: handlers.dfy ===
/**
 The HTTP handlers' decisions (internal/handlers/handlers.go), as pure
 functions: which status code each outcome gets, the empty-URL guard, and
 the rewrite of a stored archive path into an absolute URL. Writing the
 response (JSON encoding, `http.Error`) is not modelled; `Body` names what
 would be written.
 */
module Handlers {
  import opened Results
  import opened Models
  import Paths
  import Lifecycle

  const StatusOK: int := 200
  const StatusCreated: int := 201
  const StatusBadRequest: int := 400
  const StatusForbidden: int := 403
  const StatusNotFound: int := 404
  const StatusInternalServerError: int := 500
  const StatusServiceUnavailable: int := 503

  /** Message the add-URL handler sends for a missing `url` form value. */
  const ErrURLRequired: string := "URL required"

  datatype Body = NoBody | IdJson(id: string) | ErrorText(text: string) | TaskJson(task: Task)

  datatype Response = Response(code: int, body: Body)

  /** `getStatusCode`: the code for an error text coming out of `AddURL`. */
  function StatusCode(msg: string): (code: int)
    ensures code == StatusNotFound <==> msg == ErrTaskNotFound
    ensures code == StatusForbidden <==> msg == ErrMaxFiles
    ensures code == StatusBadRequest <==> msg == ErrInvalidType
    ensures code == StatusInternalServerError <==>
              msg != ErrTaskNotFound && msg != ErrMaxFiles && msg != ErrInvalidType
  {
    if msg == ErrTaskNotFound then StatusNotFound
    else if msg == ErrMaxFiles then StatusForbidden
    else if msg == ErrInvalidType then StatusBadRequest
    else StatusInternalServerError
  }

  /** A handler's next state and response, plus the launched-pipeline flag of `AddURL`. */
  datatype Handled = Handled(state: AppState, response: Response, triggered: bool)

  /** `CreateTaskHandler`: 201 with the new id, or 503 with the error text. */
  function CreateTaskHandler(s: AppState, id: string, now: int): (h: Handled)
    ensures h.response.code == StatusServiceUnavailable <==> s.activeTasks >= s.config.maxTasks
    ensures h.response.code == StatusServiceUnavailable ==>
              h.state == s && h.response.body == ErrorText(ErrServerBusy)
    ensures h.response.code != StatusServiceUnavailable ==>
              && h.response == Response(StatusCreated, IdJson(id))
              && id in h.state.tasks && h.state.tasks[id].status == Pending
    ensures h.state == CreateTask(s, id, now).state
    ensures !h.triggered
  {
    var r := CreateTask(s, id, now);
    match r.result
    case Err(msg) => Handled(r.state, Response(StatusServiceUnavailable, ErrorText(msg)), false)
    case Ok(t) => Handled(r.state, Response(StatusCreated, IdJson(t.id)), false)
  }

  /**
   `AddURLHandler`: an empty `url` is refused with 400 before the store is
   consulted; otherwise `AddURL` runs and its error, if any, is answered
   with `StatusCode` of its text, and success with 200.
   */
  function AddURLHandler(s: AppState, taskID: string, url: string): (h: Handled)
    ensures url == "" ==>
              h == Handled(s, Response(StatusBadRequest, ErrorText(ErrURLRequired)), false)
    ensures h.response.code != StatusOK ==> h.state == s && !h.triggered
    ensures url != "" ==>
              (h.response.code == StatusOK <==> AddURL(s, taskID, url).result.Ok?)
    ensures url != "" ==>
              var r := AddURL(s, taskID, url);
              h.response == (if r.result.Ok? then Response(StatusOK, NoBody)
                             else Response(StatusCode(r.result.msg), ErrorText(r.result.msg)))
    ensures url != "" ==>
              && h.state == AddURL(s, taskID, url).state
              && (h.triggered <==> AddURL(s, taskID, url).result == Ok(true))
  {
    if url == "" then
      Handled(s, Response(StatusBadRequest, ErrorText(ErrURLRequired)), false)
    else
      var r := AddURL(s, taskID, url);
      match r.result
      case Err(msg) => Handled(r.state, Response(StatusCode(msg), ErrorText(msg)), false)
      case Ok(trigger) => Handled(r.state, Response(StatusOK, NoBody), trigger)
  }

  /** Each way `AddURL` can refuse reaches the client as its own code, and a
      500 never comes out of the add-URL handler. */
  lemma AddURLHandlerCodes(s: AppState, taskID: string, url: string)
    requires url != ""
    ensures var code := AddURLHandler(s, taskID, url).response.code;
            && (taskID !in s.tasks <==> code == StatusNotFound)
            && (code == StatusForbidden <==>
                  taskID in s.tasks && |s.tasks[taskID].urls| >= s.config.maxFiles)
            && (code == StatusBadRequest <==>
                  && taskID in s.tasks && |s.tasks[taskID].urls| < s.config.maxFiles
                  && !Paths.HasAllowedExt(url, s.config.allowedExts))
            && code in {StatusOK, StatusBadRequest, StatusForbidden, StatusNotFound}
  {
  }

  /** The URL scheme the request arrived with: https exactly when it used TLS. */
  function Scheme(tls: bool): (scheme: string)
    ensures scheme == "https" <==> tls
    ensures scheme == "http" <==> !tls
  {
    if tls then "https" else "http"
  }

  /** "<scheme>://<host>", the prefix put in front of a stored archive path. */
  function BaseURL(tls: bool, host: string): string
  {
    Scheme(tls) + "://" + host
  }

  /**
   The response copy `GetTaskHandler` encodes: a stored archive path `p`
   becomes `BaseURL + p`; no archive stays no archive; every other field
   is the stored one.
   */
  function WithAbsoluteArchive(t: Task, tls: bool, host: string): (r: Task)
    ensures r.id == t.id && r.status == t.status && r.urls == t.urls
    ensures r.errors == t.errors && r.createdAt == t.createdAt
    ensures r.archive.None? <==> t.archive.None?
    ensures t.archive.Some? ==>
              && |r.archive.value| == |BaseURL(tls, host)| + |t.archive.value|
              && r.archive.value[..|BaseURL(tls, host)|] == BaseURL(tls, host)
              && r.archive.value[|BaseURL(tls, host)|..] == t.archive.value
  {
    match t.archive
    case None => t
    case Some(p) => t.(archive := Some(BaseURL(tls, host) + p))
  }

  /** For one request, the rewrite loses nothing: tasks served with the same
      archive link have the same stored archive path. */
  lemma RewriteInjective(t1: Task, t2: Task, tls: bool, host: string)
    requires WithAbsoluteArchive(t1, tls, host).archive == WithAbsoluteArchive(t2, tls, host).archive
    ensures t1.archive == t2.archive
  {
  }

  /** `GetTaskHandler`: 404 with the error text for an unknown id, otherwise
      the task with its archive made absolute. The state is not changed. */
  function GetTaskHandler(s: AppState, taskID: string, tls: bool, host: string): (resp: Response)
    ensures resp.code == StatusNotFound <==> taskID !in s.tasks
    ensures resp.code == StatusNotFound ==> resp.body == ErrorText(ErrTaskNotFound)
    ensures resp.code != StatusNotFound ==>
              && resp.code == StatusOK
              && resp.body == TaskJson(WithAbsoluteArchive(s.tasks[taskID], tls, host))
  {
    match GetTask(s, taskID)
    case Err(msg) => Response(StatusNotFound, ErrorText(msg))
    case Ok(t) => Response(StatusOK, TaskJson(WithAbsoluteArchive(t, tls, host)))
  }

  /** A completed task is served with "<scheme>://<host>/download/<id>.zip". */
  lemma CompletedTaskLink(s: AppState, taskID: string, tls: bool, host: string)
    requires Lifecycle.Inv(s) && taskID in s.tasks && s.tasks[taskID].status == Completed
    ensures GetTaskHandler(s, taskID, tls, host).body.task.archive
            == Some(Scheme(tls) + "://" + host + ArchivePath(taskID))
  {
  }
}

=== FILE: lifecycle.dfy ===
/**
 The task store as a whole system: the invariant every reachable state
 keeps, the atomic steps that may interleave (API calls and the two locked
 sections of each pipeline run), and the at-most-once pipeline trigger.

 A pipeline run is the goroutine `AddURL` starts; its steps are `StartOp`
 (mark PROCESSING) and `FinishOp` (fail or complete). The mutex is modelled
 by taking each step whole.
 */
module Lifecycle {
  import opened Results
  import opened Models

  /** Ids of the tasks the counter is meant to count. */
  function ActiveIds(tasks: map<string, Task>): (ids: set<string>)
    ensures forall k :: k in ids <==> k in tasks && !Terminal(tasks[k].status)
  {
    set k | k in tasks && !Terminal(tasks[k].status)
  }

  /** What a stored task looks like at each point of its life. */
  predicate TaskWellFormed(k: string, t: Task, cfg: Config)
  {
    && t.id == k
    && |t.urls| <= cfg.maxFiles
    && (t.status != Pending ==> |t.urls| == cfg.maxFiles)
    && (!Terminal(t.status) ==> t.errors == map[] && t.archive == None)
    && (t.status == Completed ==>
          t.archive == Some(ArchivePath(k)) && t.errors.Keys <= set u | u in t.urls)
    && (t.status == Failed ==> t.archive == None && t.errors.Keys == {SystemErrorKey})
  }

  /**
   The store invariant: the counter equals the number of non-terminal tasks
   and stays within `maxTasks`; every task is stored under its own id and
   holds at most `maxFiles` URLs.
   */
  predicate Inv(s: AppState)
  {
    && ValidConfig(s.config)
    && (forall k :: k in s.tasks ==> TaskWellFormed(k, s.tasks[k], s.config))
    && s.activeTasks == |ActiveIds(s.tasks)|
    && s.activeTasks <= s.config.maxTasks
  }

  lemma NewAppStateInv(cfg: Config)
    requires ValidConfig(cfg)
    ensures Inv(NewAppState(cfg))
  {
  }

  /** Adding a new non-terminal task adds one active id. */
  lemma ActiveIdsInsert(tasks: map<string, Task>, id: string, t: Task)
    requires id !in tasks && !Terminal(t.status)
    ensures |ActiveIds(tasks[id := t])| == |ActiveIds(tasks)| + 1
  {
    assert ActiveIds(tasks[id := t]) == ActiveIds(tasks) + {id};
  }

  /** Replacing a task by one on the same side of terminal keeps the active ids. */
  lemma ActiveIdsSame(tasks: map<string, Task>, id: string, t: Task)
    requires id in tasks && (Terminal(t.status) <==> Terminal(tasks[id].status))
    ensures ActiveIds(tasks[id := t]) == ActiveIds(tasks)
  {
  }

  /** Finishing an active task removes exactly its id from the active ids. */
  lemma ActiveIdsFinish(tasks: map<string, Task>, id: string, t: Task)
    requires id in tasks && !Terminal(tasks[id].status) && Terminal(t.status)
    ensures |ActiveIds(tasks[id := t])| == |ActiveIds(tasks)| - 1
  {
    assert ActiveIds(tasks[id := t]) == ActiveIds(tasks) - {id};
  }

  /** One atomic step of the system. */
  datatype Op =
    | CreateOp(id: string, now: int)
    | AddURLOp(taskID: string, url: string)
    | GetTaskOp(taskID: string)
    | StartOp(taskID: string)
    | FinishOp(taskID: string, allocError: Option<string>, outcomes: seq<FetchOutcome>)

  /**
   When a step can happen. The clock-based id is new; a pipeline run starts
   only on a PENDING task whose URL count reached `maxFiles` (the trigger has
   fired) and finishes only a PROCESSING task, with one fetch outcome per URL.
   API calls can always happen.
   */
  predicate Enabled(s: AppState, op: Op)
  {
    match op
    case CreateOp(id, _) => id !in s.tasks
    case AddURLOp(_, _) => true
    case GetTaskOp(_) => true
    case StartOp(id) =>
      id in s.tasks && s.tasks[id].status == Pending && |s.tasks[id].urls| == s.config.maxFiles
    case FinishOp(id, _, outcomes) =>
      id in s.tasks && s.tasks[id].status == Processing && |outcomes| == |s.tasks[id].urls|
  }

  /** The next state, and the id of the task whose pipeline this step launched, if any. */
  datatype Effect = Effect(state: AppState, trigger: Option<string>)

  function Apply(s: AppState, op: Op): (e: Effect)
    requires Enabled(s, op)
    ensures e.trigger.Some? ==> op.AddURLOp? && e.trigger.value == op.taskID
    ensures op.AddURLOp? ==>
              && e.state == AddURL(s, op.taskID, op.url).state
              && (e.trigger.Some? <==> AddURL(s, op.taskID, op.url).result == Ok(true))
    ensures e.state.config == s.config
  {
    match op
    case CreateOp(id, now) => Effect(CreateTask(s, id, now).state, None)
    case AddURLOp(id, url) =>
      var r := AddURL(s, id, url);
      Effect(r.state, if r.result.Ok? && r.result.value then Some(id) else None)
    case GetTaskOp(_) => Effect(s, None)
    case StartOp(id) => Effect(StartProcessing(s, id), None)
    case FinishOp(id, allocError, outcomes) => Effect(FinishTask(s, id, allocError, outcomes), None)
  }

  lemma CreatePreservesInv(s: AppState, id: string, now: int)
    requires Inv(s) && id !in s.tasks
    ensures Inv(CreateTask(s, id, now).state)
  {
    var r := CreateTask(s, id, now);
    if r.result.Ok? {
      ActiveIdsInsert(s.tasks, id, r.result.value);
      assert r.state.tasks == s.tasks[id := r.result.value];
    }
  }

  lemma AddURLPreservesInv(s: AppState, id: string, url: string)
    requires Inv(s)
    ensures Inv(AddURL(s, id, url).state)
  {
    var r := AddURL(s, id, url);
    if r.result.Ok? {
      var t := s.tasks[id];
      assert t.status == Pending;
      ActiveIdsSame(s.tasks, id, r.state.tasks[id]);
      assert r.state.tasks == s.tasks[id := r.state.tasks[id]];
    }
  }

  lemma StartPreservesInv(s: AppState, id: string)
    requires Inv(s) && Enabled(s, StartOp(id))
    ensures Inv(StartProcessing(s, id))
  {
    var s' := StartProcessing(s, id);
    ActiveIdsSame(s.tasks, id, s'.tasks[id]);
    assert s'.tasks == s.tasks[id := s'.tasks[id]];
  }

  lemma FinishPreservesInv(s: AppState, id: string, allocError: Option<string>,
                           outcomes: seq<FetchOutcome>)
    requires Inv(s) && Enabled(s, FinishOp(id, allocError, outcomes))
    ensures Inv(FinishTask(s, id, allocError, outcomes))
  {
    var s' := FinishTask(s, id, allocError, outcomes);
    ActiveIdsFinish(s.tasks, id, s'.tasks[id]);
    assert s'.tasks == s.tasks[id := s'.tasks[id]];
    assert TaskWellFormed(id, s'.tasks[id], s'.config);
  }

  /** Every enabled step keeps the store invariant. */
  lemma ApplyPreservesInv(s: AppState, op: Op)
    requires Inv(s) && Enabled(s, op)
    ensures Inv(Apply(s, op).state)
  {
    match op
    case CreateOp(id, now) => CreatePreservesInv(s, id, now);
    case AddURLOp(id, url) => AddURLPreservesInv(s, id, url);
    case GetTaskOp(_) =>
    case StartOp(id) => StartPreservesInv(s, id);
    case FinishOp(id, allocError, outcomes) => FinishPreservesInv(s, id, allocError, outcomes);
  }

  /** The order in which a task passes through its statuses. */
  function Rank(st: Status): (n: nat)
    ensures n < 3
    ensures (n == 2) <==> Terminal(st)
  {
    match st
    case Pending => 0
    case Processing => 1
    case Completed => 2
    case Failed => 2
  }

  /**
   What no step does to an existing task: remove it, change its id or
   creation time, shrink or rewrite its URLs, move its status backwards,
   touch it once terminal, or touch its URLs once they are full.
   */
  lemma ApplyFrame(s: AppState, op: Op, k: string)
    requires Inv(s) && Enabled(s, op) && k in s.tasks
    ensures var s' := Apply(s, op).state;
            var t, t' := s.tasks[k], s'.tasks[k];
            && k in s'.tasks
            && t'.id == t.id && t'.createdAt == t.createdAt
            && t.urls <= t'.urls
            && Rank(t.status) <= Rank(t'.status)
            && (Terminal(t.status) ==> t' == t)
            && (|t.urls| == s.config.maxFiles ==> t'.urls == t.urls)
  {
    match op
    case CreateOp(id, now) =>
    case AddURLOp(id, url) =>
      assert TaskWellFormed(k, s.tasks[k], s.config);
    case GetTaskOp(_) =>
    case StartOp(id) =>
    case FinishOp(id, allocError, outcomes) =>
  }

  /** A launched pipeline belongs to a task that has just become full. */
  lemma TriggerFillsTask(s: AppState, op: Op)
    requires Inv(s) && Enabled(s, op) && Apply(s, op).trigger.Some?
    ensures var k := Apply(s, op).trigger.value;
            && k in s.tasks && |s.tasks[k].urls| == s.config.maxFiles - 1
            && k in Apply(s, op).state.tasks
            && |Apply(s, op).state.tasks[k].urls| == s.config.maxFiles
  {
  }

  /** The outcome of a sequence of steps: the final state and the ids whose
      pipeline was launched, in order. Steps that are not enabled are not taken. */
  datatype Trace = Trace(state: AppState, triggers: seq<string>)

  function Run(s: AppState, ops: seq<Op>): (r: Trace)
    ensures r.state.config == s.config
    decreases |ops|
  {
    if |ops| == 0 then Trace(s, [])
    else if !Enabled(s, ops[0]) then Run(s, ops[1..])
    else
      var e := Apply(s, ops[0]);
      var rest := Run(e.state, ops[1..]);
      var now := if e.trigger.Some? then [e.trigger.value] else [];
      Trace(rest.state, now + rest.triggers)
  }

  /** Running an enabled step first: its launch, if any, comes before those of the rest. */
  lemma RunStep(s: AppState, op: Op, rest: seq<Op>)
    requires Enabled(s, op)
    ensures var e := Apply(s, op);
            var r := Run(e.state, rest);
            Run(s, [op] + rest)
              == Trace(r.state, (if e.trigger.Some? then [e.trigger.value] else []) + r.triggers)
  {
    assert ([op] + rest)[0] == op && ([op] + rest)[1..] == rest;
  }

  lemma {:induction false} RunPreservesInv(s: AppState, ops: seq<Op>)
    requires Inv(s)
    ensures Inv(Run(s, ops).state)
    decreases |ops|
  {
    if |ops| > 0 {
      if Enabled(s, ops[0]) {
        ApplyPreservesInv(s, ops[0]);
        RunPreservesInv(Apply(s, ops[0]).state, ops[1..]);
      } else {
        RunPreservesInv(s, ops[1..]);
      }
    }
  }

  /** Number of occurrences of `x` in `xs`. */
  function Count(xs: seq<string>, x: string): (n: nat)
    ensures n <= |xs|
  {
    if |xs| == 0 then 0 else (if xs[0] == x then 1 else 0) + Count(xs[1..], x)
  }

  /** How many more times the pipeline of `k` may still be launched from `s`. */
  function TriggerBudget(s: AppState, k: string): (n: nat)
    ensures n <= 1
  {
    if k in s.tasks && |s.tasks[k].urls| == s.config.maxFiles then 0 else 1
  }

  /** No step raises the budget of a task: once its URLs are full they stay full. */
  lemma ApplyKeepsBudget(s: AppState, op: Op, k: string)
    requires Inv(s) && Enabled(s, op)
    ensures TriggerBudget(Apply(s, op).state, k) <= TriggerBudget(s, k)
  {
  }

  /**
   Over any sequence of steps, the pipeline of a task is launched at most as
   often as its budget allows: once for a task that is not yet full, never
   for one that is.
   */
  lemma {:induction false} TriggerWithinBudget(s: AppState, ops: seq<Op>, k: string)
    requires Inv(s)
    ensures Count(Run(s, ops).triggers, k) <= TriggerBudget(s, k)
    decreases |ops|
  {
    if |ops| > 0 {
      if !Enabled(s, ops[0]) {
        TriggerWithinBudget(s, ops[1..], k);
      } else {
        var e := Apply(s, ops[0]);
        ApplyPreservesInv(s, ops[0]);
        TriggerWithinBudget(e.state, ops[1..], k);
        var now := if e.trigger.Some? then [e.trigger.value] else [];
        var rest := Run(e.state, ops[1..]).triggers;
        assert Run(s, ops).triggers == now + rest;
        if now == [] {
          assert now + rest == rest;
        } else {
          assert (now + rest)[1..] == rest;
        }
        if e.trigger == Some(k) {
          TriggerFillsTask(s, ops[0]);
          assert TriggerBudget(e.state, k) == 0;
          assert TriggerBudget(s, k) == 1;
        } else {
          ApplyKeepsBudget(s, ops[0], k);
        }
      }
    }
  }

  /** From a fresh store, every task's pipeline is launched at most once. */
  lemma TriggerAtMostOnce(cfg: Config, ops: seq<Op>, k: string)
    requires ValidConfig(cfg)
    ensures Count(Run(NewAppState(cfg), ops).triggers, k) <= 1
  {
    NewAppStateInv(cfg);
    TriggerWithinBudget(NewAppState(cfg), ops, k);
  }

  /** Every reachable state satisfies the store invariant: in particular the
      counter never exceeds `maxTasks` and no task exceeds `maxFiles` URLs. */
  lemma ReachableInv(cfg: Config, ops: seq<Op>)
    requires ValidConfig(cfg)
    ensures Inv(Run(NewAppState(cfg), ops).state)
    ensures Run(NewAppState(cfg), ops).state.activeTasks <= cfg.maxTasks
  {
    NewAppStateInv(cfg);
    RunPreservesInv(NewAppState(cfg), ops);
  }

  /** With the store full, a finishing pipeline frees room for one more task. */
  lemma FinishFreesCapacity(s: AppState, id: string, allocError: Option<string>,
                            outcomes: seq<FetchOutcome>, newID: string, now: int)
    requires Inv(s) && Enabled(s, FinishOp(id, allocError, outcomes))
    ensures CreateTask(FinishTask(s, id, allocError, outcomes), newID, now).result.Ok?
  {
  }
}

=== FILE: models.dfy ===
/**
 The task store and its operations (internal/models/models.go).

 The Go `AppState` is a map of task pointers plus an active-task counter,
 guarded by one mutex. Here the state is an immutable value and every locked
 section is one function from a state to a `Step`: the next state and the
 operation's outcome. A failing operation hands back the state it was given.
 */
module Models {
  import opened Results
  import opened Paths

  datatype Status = Pending | Processing | Completed | Failed

  /** COMPLETED and FAILED end a task's life; the counter counts the rest. */
  predicate Terminal(st: Status)
  {
    st == Completed || st == Failed
  }

  /** `Task`. `errors` is Go's nil/empty map while the task is not finished;
      `createdAt` is an opaque timestamp. */
  datatype Task = Task(
    id: string,
    status: Status,
    urls: seq<string>,
    errors: map<string, string>,
    archive: Option<string>,
    createdAt: int)

  /** `config.Config`, read once at start-up. */
  datatype Config = Config(
    port: string,
    allowedExts: seq<string>,
    maxFiles: int,
    maxTasks: int)

  /** Both limits are positive, as the configuration file is meant to set them. */
  predicate ValidConfig(cfg: Config)
  {
    cfg.maxFiles >= 1 && cfg.maxTasks >= 1
  }

  datatype AppState = AppState(
    tasks: map<string, Task>,
    activeTasks: int,
    config: Config)

  /** The state after one atomic operation together with its outcome. */
  datatype Step<+T> = Step(state: AppState, result: Result<T>)

  const ErrServerBusy: string := "server is busy"
  const ErrTaskNotFound: string := "task not found"
  const ErrMaxFiles: string := "maximum files reached"
  const ErrInvalidType: string := "invalid file type"

  /** Key under which `handleTaskError` records the failure of the whole task. */
  const SystemErrorKey: string := "system"

  /** Where a finished task's archive is published: "/download/<id>.zip". */
  function ArchivePath(id: string): (p: string)
    ensures |p| == |id| + 14
    ensures p[..10] == "/download/" && p[10..|p| - 4] == id && p[|p| - 4..] == ".zip"
  {
    "/download/" + id + ".zip"
  }

  /** Distinct tasks publish distinct archives. */
  lemma ArchivePathInjective(a: string, b: string)
    requires ArchivePath(a) == ArchivePath(b)
    ensures a == b
  {
  }

  /** `NewAppState`: an empty store with nothing active. */
  function NewAppState(cfg: Config): (s: AppState)
    ensures s.tasks == map[] && s.activeTasks == 0 && s.config == cfg
  {
    AppState(map[], 0, cfg)
  }

  /**
   `CreateTask`. Refuses with "server is busy" once the counter has reached
   the limit; otherwise stores a fresh PENDING task under `id` and counts it
   as active. The id and timestamp come from the caller (Go reads the clock
   for both).
   */
  function CreateTask(s: AppState, id: string, now: int): (r: Step<Task>)
    ensures r.result.Err? <==> s.activeTasks >= s.config.maxTasks
    ensures r.result.Err? ==> r.result.msg == ErrServerBusy && r.state == s
    ensures r.result.Ok? ==>
              var t := r.result.value;
              && t.id == id && t.status == Pending && t.urls == []
              && t.errors == map[] && t.archive == None && t.createdAt == now
              && r.state.tasks.Keys == s.tasks.Keys + {id}
              && r.state.tasks[id] == t
              && (forall k :: k in s.tasks && k != id ==> r.state.tasks[k] == s.tasks[k])
              && r.state.activeTasks == s.activeTasks + 1
              && r.state.config == s.config
  {
    if s.activeTasks >= s.config.maxTasks then
      Step(s, Err(ErrServerBusy))
    else
      var t := Task(id, Pending, [], map[], None, now);
      Step(s.(tasks := s.tasks[id := t], activeTasks := s.activeTasks + 1), Ok(t))
  }

  /**
   `AddURL`. Checks, in this order, that the task exists, that it has fewer
   than `maxFiles` URLs and that the URL's lower-cased extension is allowed;
   then appends the URL. The Ok value is the pipeline trigger: true exactly
   when this append brought the task to `maxFiles` URLs.
   */
  function AddURL(s: AppState, taskID: string, url: string): (r: Step<bool>)
    ensures taskID !in s.tasks ==> r.result == Err(ErrTaskNotFound)
    ensures taskID in s.tasks && |s.tasks[taskID].urls| >= s.config.maxFiles ==>
              r.result == Err(ErrMaxFiles)
    ensures taskID in s.tasks && |s.tasks[taskID].urls| < s.config.maxFiles
            && !HasAllowedExt(url, s.config.allowedExts) ==>
              r.result == Err(ErrInvalidType)
    ensures taskID in s.tasks && |s.tasks[taskID].urls| < s.config.maxFiles
            && HasAllowedExt(url, s.config.allowedExts) ==>
              r.result.Ok?
    ensures r.result.Err? ==> r.state == s
    ensures r.result.Ok? ==>
              && taskID in s.tasks
              && HasAllowedExt(url, s.config.allowedExts)
              && var t := s.tasks[taskID];
              && r.state.tasks.Keys == s.tasks.Keys
              && r.state.tasks[taskID] == t.(urls := t.urls + [url])
              && |r.state.tasks[taskID].urls| <= s.config.maxFiles
              && (forall k :: k in s.tasks && k != taskID ==> r.state.tasks[k] == s.tasks[k])
              && r.state.activeTasks == s.activeTasks
              && r.state.config == s.config
              && (r.result.value <==> |t.urls| + 1 == s.config.maxFiles)
  {
    if taskID !in s.tasks then
      Step(s, Err(ErrTaskNotFound))
    else
      var t := s.tasks[taskID];
      if |t.urls| >= s.config.maxFiles then
        Step(s, Err(ErrMaxFiles))
      else if !IsAllowed(Lower(Ext(url)), s.config.allowedExts) then
        Step(s, Err(ErrInvalidType))
      else
        var t' := t.(urls := t.urls + [url]);
        Step(s.(tasks := s.tasks[taskID := t']), Ok(|t'.urls| == s.config.maxFiles))
  }

  /**
   `GetTask`: the stored task itself, or "task not found". It is a read: the
   caller keeps the state it had. Go hands out the stored pointer, not a copy.
   */
  function GetTask(s: AppState, taskID: string): (r: Result<Task>)
    ensures r.Err? <==> taskID !in s.tasks
    ensures r.Err? ==> r.msg == ErrTaskNotFound
    ensures r.Ok? ==> r.value == s.tasks[taskID]
  {
    if taskID !in s.tasks then Err(ErrTaskNotFound) else Ok(s.tasks[taskID])
  }

  /** Reading a task just created gives back exactly the task `CreateTask` returned. */
  lemma GetAfterCreate(s: AppState, id: string, now: int)
    requires CreateTask(s, id, now).result.Ok?
    ensures GetTask(CreateTask(s, id, now).state, id) == Ok(CreateTask(s, id, now).result.value)
  {
  }

  /** Reading a task after a successful `AddURL` shows the URL at the end of its list,
      and a failed `AddURL` leaves every read as it was. */
  lemma GetAfterAddURL(s: AppState, taskID: string, url: string, k: string)
    ensures var r := AddURL(s, taskID, url);
            var g, g' := GetTask(s, k), GetTask(r.state, k);
            && (r.result.Err? || k != taskID ==> g' == g)
            && (r.result.Ok? && k == taskID ==>
                  g.Ok? && g'.Ok? && g'.value.urls == g.value.urls + [url]
                  && g'.value.urls[|g'.value.urls| - 1] == url)
  {
  }

  /** Replaces the task stored under `id`, keeping every other task. */
  function UpdateTask(s: AppState, id: string, t: Task): (s': AppState)
    requires id in s.tasks
    ensures s'.tasks.Keys == s.tasks.Keys && s'.tasks[id] == t
    ensures forall k :: k in s.tasks && k != id ==> s'.tasks[k] == s.tasks[k]
    ensures s'.activeTasks == s.activeTasks && s'.config == s.config
  {
    s.(tasks := s.tasks[id := t])
  }

  /** First locked section of `processTask`: the task becomes PROCESSING. */
  function StartProcessing(s: AppState, id: string): (s': AppState)
    requires id in s.tasks
    ensures s'.tasks.Keys == s.tasks.Keys
    ensures s'.tasks[id] == s.tasks[id].(status := Processing)
    ensures forall k :: k in s.tasks && k != id ==> s'.tasks[k] == s.tasks[k]
    ensures s'.activeTasks == s.activeTasks && s'.config == s.config
  {
    UpdateTask(s, id, s.tasks[id].(status := Processing))
  }

  /** What fetching one URL produced: its bytes went into the archive, or an error text. */
  datatype FetchOutcome = Fetched | FetchError(reason: string)

  /**
   The error map the download loop of `processTask` builds: URLs are
   attempted in order and each failure writes `errs[url] = reason`, so for
   a URL registered twice the last failing attempt's reason is kept.
   */
  function CollectErrors(urls: seq<string>, outcomes: seq<FetchOutcome>): (errs: map<string, string>)
    requires |outcomes| == |urls|
    ensures errs.Keys <= set u | u in urls
    ensures |urls| > 0 && outcomes[|urls| - 1].FetchError? ==>
              urls[|urls| - 1] in errs && errs[urls[|urls| - 1]] == outcomes[|urls| - 1].reason
    decreases |urls|
  {
    if |urls| == 0 then map[]
    else
      var n := |urls| - 1;
      var errs := CollectErrors(urls[..n], outcomes[..n]);
      match outcomes[n]
      case Fetched => errs
      case FetchError(reason) => errs[urls[n] := reason]
  }

  /** The fetch of the `i`-th URL, which is `u`, failed. */
  predicate FailedAt(urls: seq<string>, outcomes: seq<FetchOutcome>, u: string, i: int)
    requires |outcomes| == |urls|
  {
    0 <= i < |urls| && urls[i] == u && outcomes[i].FetchError?
  }

  /** The `i`-th fetch is the last failed fetch of `u`: later fetches of `u` succeeded. */
  predicate LastFailure(urls: seq<string>, outcomes: seq<FetchOutcome>, u: string, i: int)
    requires |outcomes| == |urls|
  {
    && FailedAt(urls, outcomes, u, i)
    && forall j :: i < j < |urls| && urls[j] == u ==> outcomes[j].Fetched?
  }

  /** One step of the download loop: the last URL's outcome decides its own
      entry and leaves every other entry as the earlier URLs made it. */
  lemma CollectErrorsUnfold(urls: seq<string>, outcomes: seq<FetchOutcome>, u: string)
    requires |outcomes| == |urls| > 0
    ensures var n := |urls| - 1;
            var prev, errs := CollectErrors(urls[..n], outcomes[..n]), CollectErrors(urls, outcomes);
            if outcomes[n].FetchError? && urls[n] == u then
              u in errs && errs[u] == outcomes[n].reason
            else
              (u in errs <==> u in prev) && (u in prev ==> errs[u] == prev[u])
  {
  }

  /** The error map holds exactly the URLs with at least one failed fetch. */
  lemma {:induction false} CollectErrorsHas(urls: seq<string>, outcomes: seq<FetchOutcome>, u: string)
    requires |outcomes| == |urls|
    ensures u in CollectErrors(urls, outcomes) <==> exists i :: FailedAt(urls, outcomes, u, i)
    decreases |urls|
  {
    if |urls| > 0 {
      var n := |urls| - 1;
      var pu, po := urls[..n], outcomes[..n];
      CollectErrorsHas(pu, po, u);
      CollectErrorsUnfold(urls, outcomes, u);
      assert forall i :: 0 <= i < n ==> pu[i] == urls[i] && po[i] == outcomes[i];
      if outcomes[n].FetchError? && urls[n] == u {
        assert FailedAt(urls, outcomes, u, n);
      } else {
        assert forall i :: FailedAt(urls, outcomes, u, i) <==> FailedAt(pu, po, u, i);
      }
    }
  }

  /** Each URL of the error map is mapped to the reason of its last failed fetch. */
  lemma {:induction false} CollectErrorsLast(urls: seq<string>, outcomes: seq<FetchOutcome>, u: string)
    requires |outcomes| == |urls|
    requires u in CollectErrors(urls, outcomes)
    ensures exists i :: LastFailure(urls, outcomes, u, i)
                        && outcomes[i].reason == CollectErrors(urls, outcomes)[u]
    decreases |urls|
  {
    var n := |urls| - 1;
    CollectErrorsUnfold(urls, outcomes, u);
    if outcomes[n].FetchError? && urls[n] == u {
      assert LastFailure(urls, outcomes, u, n);
    } else {
      var pu, po := urls[..n], outcomes[..n];
      CollectErrorsLast(pu, po, u);
      var i :| LastFailure(pu, po, u, i) && po[i].reason == CollectErrors(pu, po)[u];
      assert pu[i] == urls[i] && po[i] == outcomes[i];
      assert LastFailure(urls, outcomes, u, i);
    }
  }

  /**
   The error map holds exactly the URLs with at least one failed fetch, and
   each such URL is mapped to the reason of its last failed fetch.
   */
  lemma CollectErrorsSpec(urls: seq<string>, outcomes: seq<FetchOutcome>, u: string)
    requires |outcomes| == |urls|
    ensures u in CollectErrors(urls, outcomes) <==> exists i :: FailedAt(urls, outcomes, u, i)
    ensures u in CollectErrors(urls, outcomes) ==>
              exists i :: LastFailure(urls, outcomes, u, i)
                          && outcomes[i].reason == CollectErrors(urls, outcomes)[u]
  {
    CollectErrorsHas(urls, outcomes, u);
    if u in CollectErrors(urls, outcomes) {
      CollectErrorsLast(urls, outcomes, u);
    }
  }

  /** With no repeated URL, each URL's entry is exactly its own fetch result. */
  lemma CollectErrorsDistinct(urls: seq<string>, outcomes: seq<FetchOutcome>, i: int)
    requires |outcomes| == |urls|
    requires forall a, b :: 0 <= a < b < |urls| ==> urls[a] != urls[b]
    requires 0 <= i < |urls|
    ensures urls[i] in CollectErrors(urls, outcomes) <==> outcomes[i].FetchError?
    ensures outcomes[i].FetchError? ==> CollectErrors(urls, outcomes)[urls[i]] == outcomes[i].reason
  {
    CollectErrorsSpec(urls, outcomes, urls[i]);
    if urls[i] in CollectErrors(urls, outcomes) {
      var k :| LastFailure(urls, outcomes, urls[i], k)
               && outcomes[k].reason == CollectErrors(urls, outcomes)[urls[i]];
      assert k == i;
    }
  }

  /**
   Final locked section of `processTask`: the task becomes COMPLETED with the
   collected per-URL errors and "/download/<id>.zip" as its archive, and the
   counter drops by one. One outcome is given per registered URL.
   */
  function CompleteTask(s: AppState, id: string, outcomes: seq<FetchOutcome>): (s': AppState)
    requires id in s.tasks && |outcomes| == |s.tasks[id].urls|
    ensures s'.tasks.Keys == s.tasks.Keys
    ensures var t := s.tasks[id]; var t' := s'.tasks[id];
            && t'.status == Completed
            && t'.errors == CollectErrors(t.urls, outcomes)
            && t'.archive == Some(ArchivePath(t.id))
            && t'.id == t.id && t'.urls == t.urls && t'.createdAt == t.createdAt
    ensures forall k :: k in s.tasks && k != id ==> s'.tasks[k] == s.tasks[k]
    ensures s'.activeTasks == s.activeTasks - 1 && s'.config == s.config
  {
    var t := s.tasks[id];
    var t' := t.(status := Completed,
                 errors := CollectErrors(t.urls, outcomes),
                 archive := Some(ArchivePath(t.id)));
    UpdateTask(s, id, t').(activeTasks := s.activeTasks - 1)
  }

  /**
   `handleTaskError`: the task becomes FAILED with the single error
   {"system": msg} and the counter drops by one. Nothing else changes.
   */
  function HandleTaskError(s: AppState, id: string, msg: string): (s': AppState)
    requires id in s.tasks
    ensures s'.tasks.Keys == s.tasks.Keys
    ensures var t := s.tasks[id]; var t' := s'.tasks[id];
            && t'.status == Failed
            && t'.errors == map[SystemErrorKey := msg]
            && t'.archive == t.archive
            && t'.id == t.id && t'.urls == t.urls && t'.createdAt == t.createdAt
    ensures forall k :: k in s.tasks && k != id ==> s'.tasks[k] == s.tasks[k]
    ensures s'.activeTasks == s.activeTasks - 1 && s'.config == s.config
  {
    var t := s.tasks[id];
    UpdateTask(s, id, t.(status := Failed, errors := map[SystemErrorKey := msg]))
      .(activeTasks := s.activeTasks - 1)
  }

  /**
   The rest of `processTask` after the task was marked PROCESSING: when the
   archive file cannot be created (`allocError` holds the error text) the
   task fails; otherwise every URL is attempted and the task completes.
   */
  function FinishTask(s: AppState, id: string, allocError: Option<string>,
                      outcomes: seq<FetchOutcome>): (s': AppState)
    requires id in s.tasks && |outcomes| == |s.tasks[id].urls|
    ensures s'.tasks.Keys == s.tasks.Keys
    ensures s'.tasks[id].status == (if allocError.Some? then Failed else Completed)
    ensures allocError.Some? ==> s'.tasks[id].errors == map[SystemErrorKey := allocError.value]
    ensures allocError.Some? ==> s'.tasks[id].archive == s.tasks[id].archive
    ensures allocError.None? ==> s'.tasks[id].archive == Some(ArchivePath(s.tasks[id].id))
    ensures allocError.None? ==> s'.tasks[id].errors == CollectErrors(s.tasks[id].urls, outcomes)
    ensures s'.tasks[id].id == s.tasks[id].id && s'.tasks[id].urls == s.tasks[id].urls
    ensures s'.tasks[id].createdAt == s.tasks[id].createdAt
    ensures forall k :: k in s.tasks && k != id ==> s'.tasks[k] == s.tasks[k]
    ensures s'.activeTasks == s.activeTasks - 1 && s'.config == s.config
  {
    match allocError
    case Some(msg) => HandleTaskError(s, id, msg)
    case None => CompleteTask(s, id, outcomes)
  }
}

=== FILE: paths.dfy ===
/**
 The pure string helpers behind the file-type check of `AddURL`:
 the extension of a URL (`filepath.Ext`), ASCII lower-casing
 (`strings.ToLower`) and membership in the allowed-extension list
 (`isAllowed`).
 */
module Paths {

  /** The path separator `filepath.Ext` stops at (Unix). */
  const Separator: char := '/'

  /** The result of `ExtScan(path, i)` inspects only `path[..i]` but is always a suffix of `path`. */
  function ExtScan(path: string, i: nat): (r: string)
    requires i <= |path|
    ensures r != [] ==>
              && |r| <= |path|
              && |path| - |r| < i
              && r == path[|path| - |r|..]
              && r[0] == '.'
              && forall k :: |path| - |r| < k < i ==> path[k] != '.' && path[k] != Separator
    ensures r == [] ==>
              forall k :: 0 <= k < i && path[k] == '.' ==>
                exists j :: k < j < i && path[j] == Separator
    decreases i
  {
    if i == 0 then ""
    else if path[i - 1] == Separator then ""
    else if path[i - 1] == '.' then path[i - 1..]
    else ExtScan(path, i - 1)
  }

  /**
   The extension of `path`: the suffix starting at the last '.' of the
   final path element, or "" when that element has no '.'.
   */
  function Ext(path: string): (r: string)
    ensures |r| <= |path| && r == path[|path| - |r|..]
    ensures r == [] || r[0] == '.'
  {
    ExtScan(path, |path|)
  }

  /** Characterisation of `Ext` in both directions: it is empty exactly when
      every '.' of the path is followed by a separator, and otherwise it is
      the suffix after the last '.', which holds no further '.' or separator. */
  lemma ExtCharacterisation(path: string)
    ensures Ext(path) == [] <==>
              forall k :: 0 <= k < |path| && path[k] == '.' ==>
                exists j :: k < j < |path| && path[j] == Separator
    ensures Ext(path) != [] ==>
              var j := |path| - |Ext(path)|;
              && 0 <= j < |path|
              && Ext(path) == path[j..]
              && path[j] == '.'
              && forall k :: j < k < |path| ==> path[k] != '.' && path[k] != Separator
  {
  }

  /** Converse of the characterisation: a '.' followed by neither a '.' nor a
      separator starts the extension. */
  lemma ExtFindsDot(path: string, k: nat)
    requires k < |path| && path[k] == '.'
    requires forall j :: k < j < |path| ==> path[j] != '.' && path[j] != Separator
    ensures Ext(path) == path[k..]
  {
  }

  predicate IsUpperAscii(c: char)
  {
    'A' <= c <= 'Z'
  }

  /** ASCII lower-casing of one character; every other character is kept. */
  function LowerChar(c: char): (r: char)
    ensures !IsUpperAscii(r)
    ensures IsUpperAscii(c) ==> r as int == c as int + 32
    ensures !IsUpperAscii(c) ==> r == c
  {
    if IsUpperAscii(c) then (c as int + 32) as char else c
  }

  /** `strings.ToLower`, restricted to ASCII letters. */
  function Lower(s: string): (r: string)
    ensures |r| == |s|
    ensures forall i :: 0 <= i < |s| ==> r[i] == LowerChar(s[i])
  {
    seq(|s|, i requires 0 <= i < |s| => LowerChar(s[i]))
  }

  /** Lower-casing is idempotent and leaves no upper-case letter behind. */
  lemma LowerIdempotent(s: string)
    ensures Lower(Lower(s)) == Lower(s)
    ensures forall i :: 0 <= i < |s| ==> !IsUpperAscii(Lower(s)[i])
  {
  }

  /** Lower-casing commutes with extension extraction, because it never turns
      a character into or out of '.' or the separator. */
  lemma {:induction false} LowerCommutesWithExtScan(path: string, i: nat)
    requires i <= |path|
    ensures Lower(ExtScan(path, i)) == ExtScan(Lower(path), i)
    decreases i
  {
    var lp := Lower(path);
    if i == 0 {
    } else if path[i - 1] == Separator {
      assert lp[i - 1] == Separator;
    } else if path[i - 1] == '.' {
      assert lp[i - 1] == '.';
      assert Lower(path[i - 1..]) == lp[i - 1..];
    } else {
      assert lp[i - 1] != Separator && lp[i - 1] != '.';
      LowerCommutesWithExtScan(path, i - 1);
    }
  }

  lemma LowerCommutesWithExt(path: string)
    ensures Lower(Ext(path)) == Ext(Lower(path))
  {
    LowerCommutesWithExtScan(path, |path|);
  }

  /**
   `isAllowed`: scans the allowed list in order and accepts `ext` when some
   entry `a` satisfies "." + a == ext. Entries are compared as written,
   without lower-casing.
   */
  function IsAllowed(ext: string, allowed: seq<string>): (r: bool)
    ensures r <==> exists i :: 0 <= i < |allowed| && "." + allowed[i] == ext
    ensures ext == [] ==> !r
  {
    if |allowed| == 0 then false
    else if "." + allowed[0] == ext then true
    else
      var rest := IsAllowed(ext, allowed[1..]);
      assert forall i :: 1 <= i < |allowed| ==> allowed[1..][i - 1] == allowed[i];
      rest
  }

  /** The file-type test `AddURL` applies to a URL. */
  predicate HasAllowedExt(url: string, allowed: seq<string>)
    ensures HasAllowedExt(url, allowed) <==>
              exists i :: 0 <= i < |allowed| && "." + allowed[i] == Lower(Ext(url))
    ensures Ext(url) == [] ==> !HasAllowedExt(url, allowed)
  {
    IsAllowed(Lower(Ext(url)), allowed)
  }

  /** A URL whose final path element has no '.' never passes the file-type test. */
  lemma NoExtensionRejected(url: string, allowed: seq<string>)
    requires forall k :: 0 <= k < |url| && url[k] == '.' ==>
               exists j :: k < j < |url| && url[j] == Separator
    ensures !HasAllowedExt(url, allowed)
  {
  }

  /** The file-type test ignores ASCII case in the URL. */
  lemma HasAllowedExtIgnoresCase(url: string, allowed: seq<string>)
    ensures HasAllowedExt(url, allowed) <==> HasAllowedExt(Lower(url), allowed)
  {
    LowerCommutesWithExt(url);
    LowerIdempotent(Ext(url));
  }

  /** Because only the URL side is lower-cased, an allowed entry holding an
      upper-case ASCII letter can never be matched by any URL. */
  lemma UpperCaseEntryNeverMatches(url: string, a: string)
    requires exists i :: 0 <= i < |a| && IsUpperAscii(a[i])
    ensures Lower(Ext(url)) != "." + a
  {
    var e := Lower(Ext(url));
    var i :| 0 <= i < |a| && IsUpperAscii(a[i]);
    if |e| == |a| + 1 {
      assert !IsUpperAscii(e[i + 1]);
    }
  }
}

=== FILE: results.dfy ===
/**
 Small failure-carrying datatypes shared by the model.

 Go signals failure with a nil pointer and an `error` value whose text is
 what the HTTP layer inspects; `Result` keeps exactly that text.
 */
module Results {

  /** A value that may be absent, as a Go `*string` that may be nil. */
  datatype Option<+T> = None | Some(value: T)

  /** The outcome of an operation: a value, or the text of the Go `error`. */
  datatype Result<+T> = Ok(value: T) | Err(msg: string)
}

=== FILE: scenarios.dfy ===
/**
 Concrete end-to-end runs of the store, each stated as a lemma about the
 model's functions on literal inputs.
 */
module Scenarios {
  import opened Results
  import opened Models
  import Paths
  import Lifecycle

  const Cfg: Config := Config("8080", ["pdf", "jpeg"], 2, 1)

  const UrlA: string := "http://h/a.PDF"
  const UrlB: string := "http://h/b.pdf"
  const NotFound404: FetchOutcome := FetchError("unexpected status: 404 Not Found")

  lemma ScenarioUrlsAllowed()
    ensures Paths.HasAllowedExt(UrlA, Cfg.allowedExts)
    ensures Paths.HasAllowedExt(UrlB, Cfg.allowedExts)
  {
    Paths.ExtFindsDot(UrlA, 10);
    Paths.ExtFindsDot(UrlB, 10);
    assert Paths.Lower(".PDF") == ".pdf";
    assert "." + Cfg.allowedExts[0] == ".pdf";
  }

  /**
   Two files per task: after the first URL the task is still PENDING with
   that one URL; the second URL fills it and launches the pipeline.
   */
  lemma TwoFileRegistration()
    ensures var c := CreateTask(NewAppState(Cfg), "t1", 0);
            var a := AddURL(c.state, "t1", UrlA);
            var b := AddURL(a.state, "t1", UrlB);
            && a.result == Ok(false)
            && a.state.tasks["t1"].status == Pending
            && a.state.tasks["t1"].urls == [UrlA]
            && b.result == Ok(true)
            && b.state.tasks["t1"].urls == [UrlA, UrlB]
  {
    ScenarioUrlsAllowed();
    var c := CreateTask(NewAppState(Cfg), "t1", 0);
    assert c.state.tasks["t1"].urls == [];
    var a := AddURL(c.state, "t1", UrlA);
    assert a.result.Ok?;
    assert a.state.tasks["t1"].urls == [UrlA];
    var b := AddURL(a.state, "t1", UrlB);
    assert b.result.Ok?;
  }

  /**
   The pipeline of that task, with the first fetch succeeding and the second
   answered 404: the task completes with exactly that one error, gets its
   archive, and is no longer counted.
   */
  lemma TwoFileCompletion(s: AppState)
    requires "t1" in s.tasks && s.tasks["t1"].urls == [UrlA, UrlB] && s.tasks["t1"].id == "t1"
    ensures var s' := FinishTask(s, "t1", None, [Fetched, NotFound404]);
            && s'.tasks["t1"].status == Completed
            && s'.tasks["t1"].errors == map[UrlB := NotFound404.reason]
            && s'.tasks["t1"].archive == Some("/download/t1.zip")
            && s'.activeTasks == s.activeTasks - 1
  {
    assert [UrlA, UrlB][..1] == [UrlA];
    assert [Fetched, NotFound404][..1] == [Fetched];
    assert CollectErrors([UrlA], [Fetched]) == map[] by {
      assert [UrlA][..0] == [];
      assert [Fetched][..0] == [];
    }
    assert ArchivePath("t1") == "/download/t1.zip";
  }

  /** A URL of a type not in the list is refused and leaves the task PENDING and empty. */
  lemma UnsupportedTypeScenario()
    ensures var c := CreateTask(NewAppState(Cfg), "t1", 0);
            var a := AddURL(c.state, "t1", "http://h/notes.txt");
            && a.result == Err(ErrInvalidType)
            && a.state.tasks["t1"].status == Pending
            && a.state.tasks["t1"].urls == []
  {
  }

  /** With the one slot taken a second task is refused; once the first task
      has received its two URLs and its pipeline has finished, a new one is
      accepted. */
  lemma CapacityScenario()
    ensures var c1 := CreateTask(NewAppState(Cfg), "t1", 0);
            var c2 := CreateTask(c1.state, "t2", 1);
            var a := AddURL(c1.state, "t1", UrlA);
            var b := AddURL(a.state, "t1", UrlB);
            && c2.result == Err(ErrServerBusy)
            && b.result == Ok(true)
            && "t1" in b.state.tasks && b.state.tasks["t1"].urls == [UrlA, UrlB]
            && var s' := FinishTask(StartProcessing(b.state, "t1"), "t1", None, [Fetched, Fetched]);
               CreateTask(s', "t2", 2).result.Ok?
  {
    TwoFileRegistration();
  }

  /** The steps of a two-file scenario as one trace of the system: create
      "t1", add `a` and `b`, run its pipeline with `b` failing. */
  function TwoFileSteps(a: string, b: string, reason: string): seq<Lifecycle.Op>
  {
    [ Lifecycle.CreateOp("t1", 0),
      Lifecycle.AddURLOp("t1", a),
      Lifecycle.AddURLOp("t1", b),
      Lifecycle.StartOp("t1"),
      Lifecycle.FinishOp("t1", None, [Fetched, FetchError(reason)]) ]
  }

  /** Running a create step whose id is new. */
  lemma CreateStep(s: AppState, id: string, now: int, rest: seq<Lifecycle.Op>)
    requires id !in s.tasks
    ensures Lifecycle.Run(s, [Lifecycle.CreateOp(id, now)] + rest)
            == Lifecycle.Run(CreateTask(s, id, now).state, rest)
  {
    Lifecycle.RunStep(s, Lifecycle.CreateOp(id, now), rest);
  }

  /** Running an add step; its launch, if it reports one, is recorded first. */
  lemma AddStep(s: AppState, id: string, url: string, rest: seq<Lifecycle.Op>)
    ensures var a := AddURL(s, id, url);
            var r := Lifecycle.Run(a.state, rest);
            Lifecycle.Run(s, [Lifecycle.AddURLOp(id, url)] + rest)
              == Lifecycle.Trace(r.state, (if a.result == Ok(true) then [id] else []) + r.triggers)
  {
    Lifecycle.RunStep(s, Lifecycle.AddURLOp(id, url), rest);
  }

  /** The first three steps from a new store: create "t1" and add both URLs;
      only the second add launches the pipeline, leaving "t1" PENDING with
      both URLs. */
  lemma TwoFileRegistrationSteps(cfg: Config, a: string, b: string, reason: string)
    requires cfg.maxFiles == 2 && cfg.maxTasks >= 1
    requires Paths.HasAllowedExt(a, cfg.allowedExts) && Paths.HasAllowedExt(b, cfg.allowedExts)
    ensures var s3 := AddURL(AddURL(CreateTask(NewAppState(cfg), "t1", 0).state, "t1", a).state, "t1", b).state;
            && "t1" in s3.tasks && s3.tasks["t1"].id == "t1" && s3.tasks["t1"].status == Pending
            && s3.tasks["t1"].urls == [a, b] && s3.activeTasks == 1 && s3.config == cfg
            && var r := Lifecycle.Run(s3, TwoFileSteps(a, b, reason)[3..]);
               Lifecycle.Run(NewAppState(cfg), TwoFileSteps(a, b, reason)) == Lifecycle.Trace(r.state, ["t1"] + r.triggers)
  {
    var ops := TwoFileSteps(a, b, reason);
    var s0 := NewAppState(cfg);
    var s1 := CreateTask(s0, "t1", 0).state;
    var s2 := AddURL(s1, "t1", a);
    assert s2.result == Ok(false) && s2.state.tasks["t1"].urls == [a];
    var s3 := AddURL(s2.state, "t1", b);
    assert s3.result == Ok(true) && s3.state.tasks["t1"].urls == [a, b];
    var tail := ops[3..];
    AddStep(s2.state, "t1", b, tail);
    AddStep(s1, "t1", a, [ops[2]] + tail);
    CreateStep(s0, "t1", 0, [ops[1]] + ([ops[2]] + tail));
    assert ops == [ops[0]] + ([ops[1]] + ([ops[2]] + tail));
  }

  /** The last two steps: the pipeline of the filled task starts and finishes
      with `b` failing, which leaves exactly that one error. */
  lemma TwoFilePipelineSteps(s: AppState, a: string, b: string, reason: string)
    requires "t1" in s.tasks && s.tasks["t1"].id == "t1" && s.tasks["t1"].status == Pending
    requires s.tasks["t1"].urls == [a, b] && |s.tasks["t1"].urls| == s.config.maxFiles
    ensures var r := Lifecycle.Run(s, TwoFileSteps(a, b, reason)[3..]);
            && r.triggers == []
            && "t1" in r.state.tasks
            && r.state.tasks["t1"].status == Completed
            && r.state.tasks["t1"].urls == [a, b]
            && r.state.tasks["t1"].errors == map[b := reason]
            && r.state.tasks["t1"].archive == Some("/download/t1.zip")
            && r.state.activeTasks == s.activeTasks - 1
  {
    var ops := TwoFileSteps(a, b, reason);
    var s4 := StartProcessing(s, "t1");
    var s5 := FinishTask(s4, "t1", None, [Fetched, FetchError(reason)]);
    assert ops[3..] == [ops[3]] + ([ops[4]] + []);
    Lifecycle.RunStep(s4, ops[4], []);
    Lifecycle.RunStep(s, ops[3], [ops[4]] + []);
    assert [a, b][..1] == [a];
    assert [Fetched, FetchError(reason)][..1] == [Fetched];
    assert CollectErrors([a], [Fetched]) == map[] by {
      assert [a][..0] == [];
      assert [Fetched][..0] == [];
    }
    assert ArchivePath("t1") == "/download/t1.zip";
  }

  /**
   A two-file task run end to end as one trace from a new store: every step
   is taken, the pipeline of "t1" is launched exactly once, and the task ends
   COMPLETED with the one error of `b`, its archive, and nothing left active.
   */
  lemma TwoFileRun(cfg: Config, a: string, b: string, reason: string)
    requires cfg.maxFiles == 2 && cfg.maxTasks >= 1
    requires Paths.HasAllowedExt(a, cfg.allowedExts) && Paths.HasAllowedExt(b, cfg.allowedExts)
    ensures var r := Lifecycle.Run(NewAppState(cfg), TwoFileSteps(a, b, reason));
            && r.triggers == ["t1"]
            && "t1" in r.state.tasks
            && r.state.tasks["t1"].status == Completed
            && r.state.tasks["t1"].urls == [a, b]
            && r.state.tasks["t1"].errors == map[b := reason]
            && r.state.tasks["t1"].archive == Some("/download/t1.zip")
            && r.state.activeTasks == 0
  {
    TwoFileRegistrationSteps(cfg, a, b, reason);
    var s3 := AddURL(AddURL(CreateTask(NewAppState(cfg), "t1", 0).state, "t1", a).state, "t1", b).state;
    TwoFilePipelineSteps(s3, a, b, reason);
    assert ["t1"] + [] == ["t1"];
  }
}
